=== FILE: README.md ===
# MIDI event transform engine

A Dafny model of the event transform engine of the Chorda Control Hub, a
browser/Electron MIDI bridge: every incoming MIDI message is classified by its
status byte; note numbers are transposed and clamped, NoteOn velocities go
through a gamma curve into a configured range, an active-note table remembers
which output note each held input note was sent as, and every other channel
message is forwarded unchanged. Panic sends All Notes Off on all 16 channels,
and presets carry the configuration in and out.

The model is functional. `Engine.Handle` is the message handler as a step
function `(Config, Table, message) -> (Table, messages sent)`. `Engine.Run`
folds it over a stream of arrivals, and each arrival carries the configuration
live at that moment. The table is a `map<int, int>`. Raw messages are
sequences of bytes. The command is `status - status % 16` and the channel is
`status % 16`, which `Midi.CommandIsMask` proves equal to the source's bit masks.

Modules, leaves first:

- `Wrappers`: `Option`.
- `Numeric`: `clamp`, and `Math.round` on reals.
- `Midi`: status-byte layout, message framing and All Notes Off. These follow
  the MIDI 1.0 Detailed Specification, Channel Voice and Channel Mode Messages.
- `NoteTable`: the active-note table.
- `Mapper`: the note mapper and the velocity curve.
- `Engine`: the handler, streams of events, and panic.
- `Trace`: properties of whole streams: the table agrees with a reference
  definition, and no note is left stuck.
- `Preset`: preset export and import on decoded field values.
- `Scenarios`: worked event sequences.

The model follows the code, including where its behaviour is not what a reader might expect:

- Panic leaves the active-note table as it is. Notes still recorded after a panic are released with their recorded output note.
- With the default mapping (1..127, gamma 1) the velocity curve is not the
  identity. Rounding `1 + 126·v/127` gives `v` for v in 64..127 and `v + 1` for
  v in 1..63 (`Mapper.DefaultVelocity`). Velocity 100, for example, comes out
  as 100.
- The table is updated on NoteOn and NoteOff even when no output port is bound.
  `send` returns early but the table writes still happen.
  `Trace.OutputDoesNotAffectTable` proves this, for a `send` that returns
  normally (see "## Left out" for a `send` that throws).
- A NoteOn (0x90) message shorter than three bytes is forwarded verbatim. Its
  missing velocity fails both note tests.

The handler's precondition `Midi.WellFramed` states what the Web MIDI port
delivers: a non-empty message of bytes, with three bytes for NoteOff, Control
Change and Pitch Bend and two for Channel Pressure. Those are the bytes the
handler reads in those branches.

## Model

| member | source | states |
|---|---|---|
| Numeric.Clamp | src/App.jsx:3 | result lies in [lo, hi]; equals x when x is in range, the nearer bound otherwise; lo when the bounds cross |
| Numeric.ClampReal | src/App.jsx:3 | the same clamp on reals, as used for gamma |
| Numeric.Round | src/App.jsx:84 | `Math.round`: the result is within one half of y, and halves round upward |
| Midi.Command | src/App.jsx:92 | `status & 0xf0`: a multiple of 16, and one of 0x00..0xF0 for a status byte |
| Midi.Channel | src/App.jsx:93 | `status & 0x0f`: a channel 0..15, and command plus channel gives back the status |
| Midi.ChannelStatus | src/App.jsx:98 | the status byte for a command and a channel 0..15 is a byte whenever the command is |
| Midi.CommandIsMask | src/App.jsx:92-93 | `status - status % 16` equals `status & 0xf0`, and `status % 16` equals `status & 0x0f` |
| Midi.ChannelStatusIsOr | src/App.jsx:98 | adding a channel to a command with a zero low nibble equals their bitwise or, as the source builds `0x90` or `0x80` with the channel |
| Midi.ChannelStatusSplits | src/App.jsx:92-98 | a status byte built from a command and a channel splits back into that command and channel |
| Midi.NoteOnMessage | src/App.jsx:91-94 | the test `cmd===0x90 && d2>0`: never true of a message shorter than three bytes, since a missing `d2` is `undefined`; never true together with the NoteOff test; for a three-byte 0x90 message exactly one of the two tests holds |
| Midi.NoteOffMessage | src/App.jsx:91-100 | the test for `cmd===0x80`, or `cmd===0x90` with `d2===0`, on a well-framed message: true only for commands 0x80 and 0x90, and never of a message shorter than three bytes, which well framing leaves only for commands other than 0x80 |
| Midi.WellFramed | src/App.jsx:91 | what the handler needs of `e.data`: non-empty, bytes, with the data bytes NoteOff, Control Change, Pitch Bend and Channel Pressure read |
| Midi.AllNotesOff | src/App.jsx:126 | `[0xB0+ch, 123, 0]`, a three-byte message |
| Midi.AllNotesOffDecodes | src/App.jsx:126 | `[0xB0 + ch, 123, 0]` is a Control Change on channel ch, controller 123 (All Notes Off), value 0, all bytes |
| NoteTable.Record | src/App.jsx:97 | after `set`, the note maps to the new output and overwrites an earlier entry; every other entry is unchanged |
| NoteTable.Lookup | src/App.jsx:101 | `get` finds a value exactly when the note is recorded, and returns the recorded value |
| NoteTable.Release | src/App.jsx:103 | after `delete` the note is absent and every other entry is unchanged; a missing note is a no-op |
| Mapper.MapNote | src/App.jsx:95 | output note in 0..127; equals note + transpose when that is in range; saturates at 0 or 127 otherwise |
| Mapper.ApplyVelocity | src/App.jsx:78-86 | output velocity in 1..127 for any mapping (including velMin > velMax and out-of-range gamma) and any curve |
| Mapper.Scale | src/App.jsx:84 | a shaped value in [0, 1] scales to a velocity in [velMin, velMax] when velMin <= velMax |
| Mapper.DefaultVelocity | src/App.jsx:78-86 | default mapping, linear curve: v is kept for 64..127 and becomes v + 1 for 1..63 |
| Mapper.VelocityWithinRange | src/App.jsx:78-86 | with 1 <= velMin <= velMax <= 127 and a curve that stays in [0, 1] for x in (0, 1] and gamma in [0.4, 2.5], as `Math.pow` does, the output lies in [velMin, velMax] |
| Mapper.LinearCurveStaysInUnit | src/App.jsx:82 | the identity curve, `Math.pow` at exponent 1, meets the premises of both DefaultVelocity and VelocityWithinRange |
| Mapper.FlatRange | src/App.jsx:84-85 | velMin == velMax gives the constant velocity clamp(velMin, 1, 127) whatever the curve and input |
| Mapper.Clamped | src/App.jsx:155-158 | each field clamped into its range; an in-range mapping is left as it is |
| Wrappers.Option.GetOr | src/App.jsx:101 | `??`: the carried value when there is one, the default otherwise |
| Engine.Send | src/App.jsx:73-76 | `send`: one message leaves when an output port is bound, none otherwise, and it is the message given |
| Engine.Handle | src/App.jsx:88-114 | without thru nothing is sent or recorded. Otherwise exactly one message is sent when a port is bound. NoteOn records `d1 -> MapNote` (other keys unchanged) and sends `[0x90 + ch, recorded note, velocity]`. NoteOff, or NoteOn with velocity 0, sends the recorded note or falls back to MapNote with the current transpose, forwards d2, and removes d1 only. CC and PitchBend send `[status, d1, d2]`, Aftertouch sends `[status, d1]`, anything else is sent verbatim; none of these touch the table. A valid table stays valid and all sent bytes are bytes |
| Engine.SentIsWellFramed | src/App.jsx:88-114 | every message the handler sends (rebuilt note messages, truncated controller messages, verbatim messages) is itself well framed, so it is one the handler would accept |
| Engine.Run | src/App.jsx:88-114 | events handled in arrival order: at most one message per event, none without a port, a valid table stays valid, every sent message is bytes |
| Engine.Panic | src/App.jsx:123-128 | exactly 16 messages, All Notes Off on channels 0..15 in order; nothing without an output port; the table is unchanged |
| Engine.NotesOffFrom | src/App.jsx:126 | the loop from channel ch: 16 - ch messages, the i-th being All Notes Off on channel ch + i |
| Engine.PanicSendsAllNotesOff | src/App.jsx:126 | each panic message is the MIDI 1.0 All Notes Off Control Change on its own channel |
| Engine.PanicIdempotent | src/App.jsx:123-128 | a second panic sends the same 16 messages and leaves the same table |
| Trace.TableTracksHolding | src/App.jsx:94-103 | after any stream, a note is recorded exactly when its last acted-on note event was a NoteOn, with the note that NoteOn mapped to. With no such event the initial entry is kept (both directions) |
| Trace.OutputDoesNotAffectTable | src/App.jsx:94-103 | the table after a stream is the same whether or not an output port is bound |
| Trace.NoStuckNote | src/App.jsx:94-104 | NoteOn n, then any events that are not note events for n (transpose changes included), then NoteOff n: the NoteOff sends the note the NoteOn sent, and n is no longer recorded |
| Trace.HoldingSkipsUntouched | src/App.jsx:94-103 | events that are not note events for n do not change what is held for n |
| Trace.RunAppend | src/App.jsx:88-114 | handling two streams one after the other is handling their concatenation: tables chain and the sent messages concatenate |
| Preset.OrDefault | src/App.jsx:155-157 | the logical-or default of `+field`: a present non-zero value is kept; NaN or zero gives the default |
| Preset.OrDefaultReal | src/App.jsx:158 | the same on the real gamma field |
| Preset.ImportMapping | src/App.jsx:154-158 | result in range. A missing `mapping` gives the defaults 0, 1, 127, 1. Each missing or zero field gives its default, and any other value is clamped into its range |
| Preset.Import | src/App.jsx:152-163 | a malformed file changes nothing and is rejected. Otherwise the import is accepted and the mapping is in range. An empty name becomes "Imported". Thru and each device id keep their current value unless the file gives one |
| Preset.Export | src/App.jsx:131-135 | every field is written with version 1. Importing the result into any session restores thru and each non-empty device id, plus a non-empty name and an in-range configuration |
| Preset.ExportImportAnySession | src/App.jsx:131-163 | settings with a name, both device ids and an in-range mapping survive export and import into any session unchanged |
| Preset.ExportImportIdentity | src/App.jsx:131-163 | in-range settings with a name survive export and import unchanged |
| Preset.ExportImportClamps | src/App.jsx:131-158 | for any settings with non-zero velMax and gamma, export then import gives the clamped mapping |
| Preset.ZeroFieldsTakeDefaults | src/App.jsx:157-158 | a zero velMax or gamma comes back as the default 127 or 1, not as its clamped value |
| Scenarios.LoudNoteUnchanged | src/App.jsx:94-98 | default mapping, linear curve: NoteOn with velocity 64..127 leaves unchanged on its own channel |
| Scenarios.ReleaseAfterTransposeChange | src/App.jsx:94-103 | NoteOn 60 under transpose +12 sends 72. After the transpose returns to 0, NoteOff 60 still sends 72, and the table ends empty |
| Scenarios.UnrecordedReleaseFallsBack | src/App.jsx:101-102 | NoteOff `0x83` (channel 3, counting from 0) note 50 with nothing recorded and transpose +5 sends note 55 with the same status and velocity |
| Scenarios.MonitorOnlyRecordsNothing | src/App.jsx:89 | with thru off a NoteOn sends nothing and records nothing |
| Scenarios.ControllerPassesThrough | src/App.jsx:105-108 | a Control Change is sent unchanged whatever the transpose |

## Left out

- `Math.pow` (src/App.jsx:82) is floating-point. It is the `curve` parameter of `Mapper.ApplyVelocity`: the model proves the bounds for any curve. It proves the exact outputs only for a curve that is the identity at exponent 1, as `Math.pow(x, 1)` is.
- Floating-point rounding is not modelled. All velocity arithmetic is on exact reals; `Math.round` is modelled exactly as floor(y + 0.5).
- Monotonicity of the velocity curve in the input velocity is not stated, since it rests on the floating-point power function.
- Web MIDI access and device enumeration and binding (src/App.jsx:32-61) are not modelled. Whether an output port is bound becomes the `hasOutput` flag.
- Message timestamps in `send` (src/App.jsx:73-76) are not modelled.
- Midi.NoteOffMessage: a 0x80 message shorter than three bytes is a NoteOff to the test at src/App.jsx:100, which does not look at the length, and the source would send `[0x80|ch, noteOut, undefined]` and delete `d1`. The model's test requires three bytes, and `Midi.WellFramed` keeps short 0x80 messages out of the handler, because a Web MIDI port delivers only complete messages.
- Engine.Send: an exception thrown by `out.send` (Web MIDI throws on a disconnected port, and `outputRef` keeps such a port until the binding effect re-runs) is not modelled. The model's `send` always returns. In the source a throwing NoteOff `send` (src/App.jsx:102) skips the `delete` at src/App.jsx:103 and leaves the entry recorded. A throwing NoteOn `send` (src/App.jsx:98) comes after the `set` at src/App.jsx:97, so the entry is recorded. `Trace.OutputDoesNotAffectTable` and `Trace.TableTracksHolding` hold only for a `send` that returns.
- Logging (src/App.jsx:63-71) and React state and rendering are not modelled.
- The handler installed by the binding effect (src/App.jsx:52-61) closes over the configuration of the render that last ran that effect. The model instead gives each arrival the configuration live when it arrives. It does not model which configuration the bound closure sees.
- Rebinding the devices is not modelled: the model has no rebinding step. In the source the binding effect (src/App.jsx:52-61) only replaces `inputRef` and `outputRef`, so the active-note table (src/App.jsx:27) persists across a rebind.
- The live setters of the control surface (src/App.jsx:231-243) are user interface and are not modelled.
- Fractional live settings are not modelled: the transpose, velMin and velMax of `Mapper.Mapping` are integers. The live number inputs at src/App.jsx:231, 236 and 237 have no `step`, so typed text such as "0.5" is stored as `clamp(+value, lo, hi)` without rounding. A fractional transpose would make src/App.jsx:95 record and send a non-integer note, and a fractional velocity range would enter the scaling at src/App.jsx:84. The int-typed mapping excludes these values.
- JSON text, `JSON.parse`/`stringify`, FileReader, Blob and the download (src/App.jsx:136-150, 164-170) are not modelled. Import works on the decoded field values, and a parse failure is the `Malformed` document.
- Preset.Import: fractional, infinite or non-string values in the file are outside the model. Transpose, velMin and velMax are decoded as integers, and the source would store a fractional value unrounded. Text fields use "" for absent or falsy values. A field whose unary plus throws is not modelled either: an object with no callable `valueOf` or `toString`, such as `{"valueOf":0,"toString":0}`, makes `+field` raise a TypeError at src/App.jsx:155-158. `setName` at src/App.jsx:153 and any setter before the throwing field have then already run, so the catch at src/App.jsx:165-166 reports a failed import after a partial write. The model's import is all or nothing: a parsed file is accepted in full, and only a `Malformed` document is rejected, leaving the settings unchanged.
- The preset `version` field is written but never read back.
- `electron-main.cjs` and `preload.cjs` are Electron IPC and file persistence, and are not part of this model.
- `public/js/midi.js` is an input monitor that formats log lines and plays test tones. It is not part of this model.
- `public/js/apply.js` and `public/js/eula-gate.js` are DOM wiring, and `scripts/` holds build scripts. None are part of this model.

=== FILE: engine.dfy ===
/** The event transform engine: `onMidiMessage` as a step function from the
    configuration, the active-note table and one raw message to the new table
    and the messages sent, plus `panic`. */
module Engine {
  import opened Wrappers
  import opened Midi
  import opened NoteTable
  import opened Mapper

  /** The part of the live state the handler reads. */
  datatype Config = Config(mapping: Mapping, thru: bool)

  /** The table after one call, and what was sent to the output port. */
  datatype Reaction = Reaction(table: Table, sent: seq<Message>)

  /** One incoming message together with the configuration live when it arrives. */
  datatype Arrival = Arrival(config: Config, data: Message)

  /** `send(out, m)`: nothing leaves when no output port is bound. */
  function Send(hasOutput: bool, m: Message): (r: seq<Message>)
    ensures |r| == if hasOutput then 1 else 0
    ensures forall x :: x in r ==> x == m
  {
    if hasOutput then [m] else []
  }

  /** `onMidiMessage`. Without thru nothing is sent and nothing recorded. A
      NoteOn records and sends the mapped note; a NoteOff sends the recorded
      note (or, on a table miss, the note mapped with the current transpose)
      and forgets it; every other message is forwarded unchanged. The table is
      updated whether or not an output port is bound. */
  function Handle(cfg: Config, curve: Curve, table: Table, data: Message, hasOutput: bool): (r: Reaction)
    requires WellFramed(data)
    ensures |r.sent| == if cfg.thru && hasOutput then 1 else 0
    ensures !cfg.thru ==> r.table == table
    ensures Valid(table) ==> Valid(r.table) && forall i :: 0 <= i < |r.sent| ==> AllBytes(r.sent[i])
    ensures cfg.thru && NoteOnMessage(data) ==>
              var n := data[1];
              && n in r.table && r.table[n] == MapNote(n, cfg.mapping.transpose)
              && AgreeExcept(table, r.table, n)
              && (hasOutput ==> r.sent[0] == [ChannelStatus(NOTE_ON, Channel(data[0])), r.table[n],
                                              ApplyVelocity(cfg.mapping, curve, data[2])])
    ensures cfg.thru && NoteOffMessage(data) ==>
              var n := data[1];
              && n !in r.table
              && AgreeExcept(table, r.table, n)
              && (hasOutput ==> r.sent[0] == [ChannelStatus(NOTE_OFF, Channel(data[0])),
                                              if n in table then table[n] else MapNote(n, cfg.mapping.transpose),
                                              data[2]])
    ensures !NoteOnMessage(data) && !NoteOffMessage(data) ==> r.table == table
    ensures cfg.thru && hasOutput && Command(data[0]) in {CONTROL_CHANGE, PITCH_BEND} ==>
              r.sent[0] == data[..3]
    ensures cfg.thru && hasOutput && Command(data[0]) == CHANNEL_PRESSURE ==>
              r.sent[0] == data[..2]
    ensures cfg.thru && hasOutput && !NoteOnMessage(data) && !NoteOffMessage(data)
            && Command(data[0]) !in {CONTROL_CHANGE, PITCH_BEND, CHANNEL_PRESSURE} ==>
              r.sent[0] == data
  {
    if !cfg.thru then
      Reaction(table, [])
    else
      var command := Command(data[0]);
      var channel := Channel(data[0]);
      if NoteOnMessage(data) then
        var noteOut := MapNote(data[1], cfg.mapping.transpose);
        var velOut := ApplyVelocity(cfg.mapping, curve, data[2]);
        Reaction(Record(table, data[1], noteOut),
                 Send(hasOutput, [ChannelStatus(NOTE_ON, channel), noteOut, velOut]))
      else if NoteOffMessage(data) then
        var noteOut := Lookup(table, data[1]).GetOr(MapNote(data[1], cfg.mapping.transpose));
        Reaction(Release(table, data[1]),
                 Send(hasOutput, [ChannelStatus(NOTE_OFF, channel), noteOut, data[2]]))
      else if command == CONTROL_CHANGE || command == PITCH_BEND then
        Reaction(table, Send(hasOutput, data[..3]))
      else if command == CHANNEL_PRESSURE then
        Reaction(table, Send(hasOutput, data[..2]))
      else
        Reaction(table, Send(hasOutput, data))
  }

  /** The engine's own output is framed as the port delivers input: every
      message sent is one the handler would accept, so engines can be chained. */
  lemma SentIsWellFramed(cfg: Config, curve: Curve, table: Table, data: Message, hasOutput: bool)
    requires WellFramed(data) && Valid(table)
    ensures var r := Handle(cfg, curve, table, data, hasOutput);
            forall i :: 0 <= i < |r.sent| ==> WellFramed(r.sent[i])
  {
    var r := Handle(cfg, curve, table, data, hasOutput);
    if cfg.thru && hasOutput {
      var m := r.sent[0];
      assert AllBytes(m);
      if NoteOnMessage(data) {
        ChannelStatusSplits(NOTE_ON, Channel(data[0]));
      } else if NoteOffMessage(data) {
        ChannelStatusSplits(NOTE_OFF, Channel(data[0]));
      } else if Command(data[0]) in {CONTROL_CHANGE, PITCH_BEND} {
        assert m[0] == data[0];
      } else if Command(data[0]) == CHANNEL_PRESSURE {
        assert m[0] == data[0];
      }
      assert WellFramed(m);
    }
  }

  ghost predicate AllWellFramed(arrivals: seq<Arrival>) {
    forall i :: 0 <= i < |arrivals| ==> WellFramed(arrivals[i].data)
  }

  /** Events handled one at a time, in arrival order; the messages sent are
      concatenated in the same order. */
  function Run(curve: Curve, table: Table, arrivals: seq<Arrival>, hasOutput: bool): (r: Reaction)
    requires AllWellFramed(arrivals)
    ensures |r.sent| <= |arrivals|
    ensures !hasOutput ==> r.sent == []
    ensures Valid(table) ==> Valid(r.table) && forall i :: 0 <= i < |r.sent| ==> AllBytes(r.sent[i])
    decreases |arrivals|
  {
    if |arrivals| == 0 then
      Reaction(table, [])
    else
      var first := Handle(arrivals[0].config, curve, table, arrivals[0].data, hasOutput);
      var rest := Run(curve, first.table, arrivals[1..], hasOutput);
      Reaction(rest.table, first.sent + rest.sent)
  }

  /** `panic`: All Notes Off on the 16 channels in order, nothing without an
      output port; the table is left as it is. */
  function Panic(table: Table, hasOutput: bool): (r: Reaction)
    ensures r.table == table
    ensures !hasOutput ==> r.sent == []
    ensures hasOutput ==> |r.sent| == CHANNELS
    ensures hasOutput ==> forall ch :: 0 <= ch < CHANNELS ==> r.sent[ch] == AllNotesOff(ch)
  {
    Reaction(table, if hasOutput then NotesOffFrom(0) else [])
  }

  function NotesOffFrom(channel: int): (ms: seq<Message>)
    requires 0 <= channel <= CHANNELS
    ensures |ms| == CHANNELS - channel
    ensures forall i {:trigger ms[i]} :: 0 <= i < |ms| ==> ms[i] == AllNotesOff(channel + i)
    decreases CHANNELS - channel
  {
    if channel == CHANNELS then [] else [AllNotesOff(channel)] + NotesOffFrom(channel + 1)
  }

  /** Each panic message is the MIDI 1.0 All Notes Off channel mode message
      (Control Change, controller 123, value 0) on its own channel. */
  lemma PanicSendsAllNotesOff(table: Table, ch: int)
    requires 0 <= ch < CHANNELS
    ensures var m := Panic(table, true).sent[ch];
            && |m| == 3 && AllBytes(m)
            && Command(m[0]) == CONTROL_CHANGE && Channel(m[0]) == ch
            && m[1] == ALL_NOTES_OFF && m[2] == 0
  {
    assert Panic(table, true).sent[ch] == AllNotesOff(ch);
    AllNotesOffDecodes(ch);
  }

  /** Panic twice in a row sends the same 16 messages both times. */
  lemma PanicIdempotent(table: Table, hasOutput: bool)
    ensures Panic(Panic(table, hasOutput).table, hasOutput) == Panic(table, hasOutput)
  {
  }
}

=== FILE: mapper.dfy ===
/** The two pure mappings of the engine: the note mapper (transpose and clamp)
    and the velocity curve (clamp, gamma shaping, scaling, clamp). */
module Mapper {
  import opened Numeric

  /** The `mapping` part of the live configuration. */
  datatype Mapping = Mapping(transpose: int, velMin: int, velMax: int, gamma: real)

  /** `defaultPreset.mapping` */
  const DEFAULT_MAPPING := Mapping(0, 1, 127, 1.0)

  /** The ranges of the control surface: the transpose and velocity setters and
      the preset import clamp into them, and the gamma slider is bounded by its
      own minimum and maximum. */
  predicate InRange(m: Mapping) {
    && -24 <= m.transpose <= 24
    && 1 <= m.velMin <= 127
    && 1 <= m.velMax <= 127
    && 0.4 <= m.gamma <= 2.5
  }

  /** The nearest in-range mapping: each field clamped on its own. */
  function Clamped(m: Mapping): (r: Mapping)
    ensures InRange(r)
    ensures InRange(m) ==> r == m
  {
    Mapping(Clamp(m.transpose, -24, 24), Clamp(m.velMin, 1, 127), Clamp(m.velMax, 1, 127),
            ClampReal(m.gamma, 0.4, 2.5))
  }

  /** `Math.pow(x, gamma)`, which works on floating-point numbers, is a
      parameter of the model: a curve maps a normalised velocity and an
      exponent to a shaped value. */
  type Curve = (real, real) -> real

  /** `Math.pow(x, 1) == x`. */
  ghost predicate LinearAtOne(curve: Curve) {
    forall x :: curve(x, 1.0) == x
  }

  /** `clamp(d1 + transpose, 0, 127)`: transposition saturates at the ends of
      the note range rather than wrapping. */
  function MapNote(note: int, transpose: int): (r: int)
    ensures 0 <= r <= 127
    ensures 0 <= note + transpose <= 127 ==> r == note + transpose
    ensures note + transpose < 0 ==> r == 0
    ensures note + transpose > 127 ==> r == 127
  {
    Clamp(note + transpose, 0, 127)
  }

  /** `applyVelocity`: the output is a valid non-zero velocity whatever the
      configuration, including `velMin > velMax` and any curve. */
  function ApplyVelocity(m: Mapping, curve: Curve, velocity: int): (r: int)
    ensures 1 <= r <= 127
  {
    var x := Clamp(velocity, 1, 127) as real / 127.0;
    var shaped := curve(x, ClampReal(m.gamma, 0.4, 2.5));
    Clamp(Scale(m, shaped), 1, 127)
  }

  /** `Math.round(velMin + x * (velMax - velMin))`: a shaped value in [0, 1]
      lands in [velMin, velMax] when the range is not inverted. */
  function Scale(m: Mapping, shaped: real): (r: int)
    ensures m.velMin <= m.velMax && 0.0 <= shaped <= 1.0 ==> m.velMin <= r <= m.velMax
  {
    ScaleRounds(m.velMin, m.velMax, shaped);
    Round(m.velMin as real + shaped * (m.velMax - m.velMin) as real)
  }

  /** The bound behind `Scale`: interpolate, then round, stays between the ends. */
  lemma ScaleRounds(lo: int, hi: int, a: real)
    ensures lo <= hi && 0.0 <= a <= 1.0 ==> lo <= Round(lo as real + a * (hi - lo) as real) <= hi
  {
    if lo <= hi && 0.0 <= a <= 1.0 {
      ScaleBetween(lo, hi, a);
      RoundBetween(lo as real + a * (hi - lo) as real, lo, hi);
    }
  }

  /** With the default mapping and a linear curve the output is the input for
      velocities 64..127 and one more than the input for 1..63: rounding
      `1 + 126 * v / 127` lands on `v + 1` once `1 - v / 127` exceeds one half. */
  lemma DefaultVelocity(curve: Curve, velocity: int)
    requires LinearAtOne(curve)
    requires 1 <= velocity <= 127
    ensures ApplyVelocity(DEFAULT_MAPPING, curve, velocity)
            == if velocity >= 64 then velocity else velocity + 1
  {
    var x := velocity as real / 127.0;
    assert Clamp(velocity, 1, 127) == velocity;
    assert ClampReal(1.0, 0.4, 2.5) == 1.0;
    assert curve(x, 1.0) == x;
    var r := Scale(DEFAULT_MAPPING, x);
    assert ApplyVelocity(DEFAULT_MAPPING, curve, velocity) == Clamp(r, 1, 127);
    var y := 1.0 + x * 126.0;
    assert r == Round(y);
    assert y == velocity as real + 1.0 - x;
    if velocity >= 64 {
      assert 1.0 - x <= 0.5;
      assert r == velocity;
    } else {
      assert 1.0 - x > 0.5;
      assert r == velocity + 1;
    }
  }

  /** A curve that keeps the shaped value in [0, 1] where the engine calls it,
      for x in (0, 1] and gamma in [0.4, 2.5], as `x ^ gamma` does, keeps the
      output inside [velMin, velMax]. */
  lemma VelocityWithinRange(m: Mapping, curve: Curve, velocity: int)
    requires 1 <= m.velMin <= m.velMax <= 127
    requires forall x, g :: 0.0 < x <= 1.0 && 0.4 <= g <= 2.5 ==> 0.0 <= curve(x, g) <= 1.0
    ensures m.velMin <= ApplyVelocity(m, curve, velocity) <= m.velMax
  {
    var x := Clamp(velocity, 1, 127) as real / 127.0;
    assert 0.0 < x <= 1.0;
    var g := ClampReal(m.gamma, 0.4, 2.5);
    assert 0.4 <= g <= 2.5;
    var shaped := curve(x, g);
    assert 0.0 <= shaped <= 1.0;
    assert ApplyVelocity(m, curve, velocity) == Clamp(Scale(m, shaped), 1, 127);
  }

  /** The premises of `DefaultVelocity` and `VelocityWithinRange` can hold
      together: the identity curve, `Math.pow` at exponent 1, meets both. */
  lemma LinearCurveStaysInUnit()
    ensures var curve: Curve := (x, g) => x;
            && LinearAtOne(curve)
            && forall x, g :: 0.0 < x <= 1.0 && 0.4 <= g <= 2.5 ==> 0.0 <= curve(x, g) <= 1.0
  {
  }

  lemma ScaleBetween(lo: int, hi: int, a: real)
    requires lo <= hi && 0.0 <= a <= 1.0
    ensures lo as real <= lo as real + a * (hi - lo) as real <= hi as real
  {
    var span := (hi - lo) as real;
    ProductBounds(a, span);
  }

  lemma ProductBounds(a: real, b: real)
    requires 0.0 <= a <= 1.0 && 0.0 <= b
    ensures 0.0 <= a * b <= b
  {
  }

  lemma RoundBetween(y: real, lo: int, hi: int)
    requires lo as real <= y <= hi as real
    ensures lo <= Round(y) <= hi
  {
  }

  /** A collapsed range (`velMin == velMax`) gives a constant velocity. */
  lemma FlatRange(m: Mapping, curve: Curve, velocity: int)
    requires m.velMin == m.velMax
    ensures ApplyVelocity(m, curve, velocity) == Clamp(m.velMin, 1, 127)
  {
    var x := Clamp(velocity, 1, 127) as real / 127.0;
    var shaped := curve(x, ClampReal(m.gamma, 0.4, 2.5));
    assert shaped * (m.velMax - m.velMin) as real == 0.0;
  }
}

=== FILE: midi.dfy ===
/** Layout of MIDI 1.0 channel messages (MIDI 1.0 Detailed Specification,
    Channel Voice and Channel Mode Messages): a status byte whose high nibble
    is the command and whose low nibble is the channel, followed by data bytes. */
module Midi {

  const NOTE_OFF := 0x80
  const NOTE_ON := 0x90
  const CONTROL_CHANGE := 0xB0
  const CHANNEL_PRESSURE := 0xD0
  const PITCH_BEND := 0xE0

  /** Controller number of the All Notes Off channel mode message. */
  const ALL_NOTES_OFF := 123
  const CHANNELS := 16

  /** One raw MIDI message as the Web MIDI port delivers or accepts it. */
  type Message = seq<int>

  predicate IsByte(b: int) {
    0 <= b < 256
  }

  predicate AllBytes(m: Message) {
    forall i :: 0 <= i < |m| ==> IsByte(m[i])
  }

  /** `status & 0xf0`: the high nibble, a multiple of 16 and, for a status
      byte, one of the sixteen commands 0x00..0xF0. */
  function Command(status: int): (r: int)
    ensures r % 16 == 0
    ensures IsByte(status) ==> 0 <= r <= 0xF0
  {
    status - status % 16
  }

  /** `status & 0x0f`: the low nibble, a channel 0..15; command and channel
      together make up the status byte. */
  function Channel(status: int): (r: int)
    ensures 0 <= r < CHANNELS
    ensures Command(status) + r == status
  {
    status % 16
  }

  /** `command | channel`: the status byte of `command` on `channel`. */
  function ChannelStatus(command: int, channel: int): (s: int)
    requires command % 16 == 0 && 0 <= channel < CHANNELS
    ensures 0 <= command <= 0xF0 ==> IsByte(s)
  {
    command + channel
  }

  /** A status byte built from a command and a channel splits back into them. */
  lemma ChannelStatusSplits(command: int, channel: int)
    requires command % 16 == 0 && 0 <= channel < CHANNELS
    ensures Command(ChannelStatus(command, channel)) == command
    ensures Channel(ChannelStatus(command, channel)) == channel
  {
  }

  /** The arithmetic split of a status byte is the source's bit mask. */
  lemma CommandIsMask(status: bv8)
    ensures Command(status as int) == (status & 0xF0) as int
    ensures Channel(status as int) == (status & 0x0F) as int
  {
    var high := status & 0xF0;
    var low := status & 0x0F;
    assert status == high + low;
    assert high as int % 16 == 0;
    assert low as int < 16;
  }

  /** Adding the channel to a command is the source's bitwise or. */
  lemma ChannelStatusIsOr(command: bv8, channel: bv8)
    requires command & 0x0F == 0 && channel < 16
    ensures ChannelStatus(command as int, channel as int) == (command | channel) as int
  {
    assert command | channel == command + channel;
  }

  /** A NoteOn with a non-zero velocity. The JavaScript `d2 > 0` is false when
      the third byte is missing, hence the length test. */
  predicate NoteOnMessage(data: Message): (b: bool)
    ensures |data| < 3 ==> !b
    ensures b ==> !NoteOffMessage(data)
    ensures |data| >= 3 && Command(data[0]) == NOTE_ON && data[2] >= 0 ==> (b <==> !NoteOffMessage(data))
  {
    |data| >= 3 && Command(data[0]) == NOTE_ON && data[2] > 0
  }

  /** A NoteOff, or the NoteOn with velocity 0 that MIDI 1.0 defines as one. */
  predicate NoteOffMessage(data: Message): (b: bool)
    ensures |data| < 3 ==> !b
    ensures b ==> Command(data[0]) == NOTE_OFF || Command(data[0]) == NOTE_ON
  {
    |data| >= 3 && (Command(data[0]) == NOTE_OFF || (Command(data[0]) == NOTE_ON && data[2] == 0))
  }

  /** What the Web MIDI port delivers: one non-empty message of bytes, with the
      data bytes its command needs for the bytes the handler reads. */
  predicate WellFramed(data: Message) {
    && |data| >= 1
    && AllBytes(data)
    && (Command(data[0]) in {NOTE_OFF, CONTROL_CHANGE, PITCH_BEND} ==> |data| >= 3)
    && (Command(data[0]) == CHANNEL_PRESSURE ==> |data| >= 2)
  }

  /** All Notes Off is a Control Change for controller 123 with value 0. */
  lemma AllNotesOffDecodes(channel: int)
    requires 0 <= channel < CHANNELS
    ensures var m := AllNotesOff(channel);
            && AllBytes(m)
            && Command(m[0]) == CONTROL_CHANGE && Channel(m[0]) == channel
            && m[1] == ALL_NOTES_OFF && m[2] == 0
  {
    var m := AllNotesOff(channel);
    ChannelStatusSplits(CONTROL_CHANGE, channel);
    assert IsByte(m[0]) && IsByte(m[1]) && IsByte(m[2]);
  }

  /** `[0xB0|ch, 123, 0]`: All Notes Off on one channel. */
  function AllNotesOff(channel: int): (m: Message)
    requires 0 <= channel < CHANNELS
    ensures |m| == 3
  {
    [ChannelStatus(CONTROL_CHANGE, channel), ALL_NOTES_OFF, 0]
  }
}

=== FILE: notetable.dfy ===
/** The active-note table (`activeMapRef`): for every input note that is
    sounding, the output note that was sent for it at NoteOn time. */
module NoteTable {
  import opened Wrappers

  type Table = map<int, int>

  /** Every recorded output note is a MIDI note number. */
  ghost predicate Valid(t: Table) {
    forall n :: n in t ==> 0 <= t[n] <= 127
  }

  /** `a` and `b` hold the same entries for every key other than `key`. */
  ghost predicate AgreeExcept(a: Table, b: Table, key: int) {
    forall n :: n != key ==> (n in a <==> n in b) && (n in a ==> a[n] == b[n])
  }

  /** `Map.set`: the new mapping wins over an earlier one for the same note. */
  function Record(t: Table, input: int, output: int): (r: Table)
    ensures input in r && r[input] == output
    ensures AgreeExcept(t, r, input)
  {
    t[input := output]
  }

  /** `Map.get`: absence is an ordinary answer, not an error. */
  function Lookup(t: Table, input: int): (r: Option<int>)
    ensures r.Some? <==> input in t
    ensures r.Some? ==> r.value == t[input]
  {
    if input in t then Some(t[input]) else None
  }

  /** `Map.delete`: a no-op when the note is not recorded. */
  function Release(t: Table, input: int): (r: Table)
    ensures input !in r
    ensures AgreeExcept(t, r, input)
  {
    t - {input}
  }
}

=== FILE: numeric.dfy ===
/** The clamp and rounding helpers the transform engine is built from. */
module Numeric {

  /** `clamp(x, min, max) = Math.max(min, Math.min(max, x))`: the nearest value
      of [lo, hi] to x; when the bounds cross, the lower bound wins. */
  function Clamp(x: int, lo: int, hi: int): (r: int)
    ensures lo <= hi ==> lo <= r <= hi
    ensures lo <= x <= hi ==> r == x
    ensures x < lo ==> r == lo
    ensures lo <= hi < x ==> r == hi
    ensures hi < lo ==> r == lo
  {
    var upper := if x < hi then x else hi;
    if upper < lo then lo else upper
  }

  /** The same clamp on real numbers (used for the gamma exponent). */
  function ClampReal(x: real, lo: real, hi: real): (r: real)
    ensures lo <= hi ==> lo <= r <= hi
    ensures lo <= x <= hi ==> r == x
    ensures x < lo ==> r == lo
    ensures lo <= hi < x ==> r == hi
    ensures hi < lo ==> r == lo
  {
    var upper := if x < hi then x else hi;
    if upper < lo then lo else upper
  }

  /** `Math.round`: the nearest integer, halves rounded towards +infinity. */
  function Round(y: real): (r: int)
    ensures r as real - 0.5 <= y < r as real + 0.5
  {
    (y + 0.5).Floor
  }
}

=== FILE: preset.dfy ===
/** Preset export and import (`exportJson`, `importJson`) on the decoded field
    values; the JSON text itself is not modelled. */
module Preset {
  import opened Wrappers
  import opened Numeric
  import opened Mapper
  import opened Engine

  /** The live values a preset carries: its name, the engine configuration and
      the ids of the bound input and output devices. */
  datatype Settings = Settings(name: string, config: Config, inId: string, outId: string)

  /** `defaultPreset`, with no device chosen yet. */
  const DEFAULT_SETTINGS := Settings("Default", Config(DEFAULT_MAPPING, true), "", "")

  /** The numeric fields of `mapping`, each as the number the source's unary
      plus makes of it; None stands for NaN (an absent or non-numeric field).
      A field whose unary plus throws is outside this model. */
  datatype RawMapping = RawMapping(transpose: Option<int>, velMin: Option<int>,
                                   velMax: Option<int>, gamma: Option<real>)

  const NO_FIELDS := RawMapping(None, None, None, None)

  /** Text fields use "" for a field that is absent or otherwise falsy. */
  datatype RawDevice = RawDevice(inId: string, outId: string)

  /** A decoded preset object. `mapping` and `device` are None when absent or
      falsy; `thru` is None when undefined and otherwise the field's truth value. */
  datatype RawPreset = RawPreset(name: string, version: Option<int>, mapping: Option<RawMapping>,
                                 thru: Option<bool>, device: Option<RawDevice>)

  /** The outcome of `JSON.parse`. */
  datatype Document = Malformed | Parsed(preset: RawPreset)

  /** The settings after an import, and whether the file was accepted. */
  datatype Imported = Imported(settings: Settings, accepted: bool)

  /** `+field || default`: NaN and zero are falsy and give the default. */
  function OrDefault(field: Option<int>, default: int): (r: int)
    ensures field.Some? && field.value != 0 ==> r == field.value
    ensures field.None? || field == Some(0) ==> r == default
  {
    if field.Some? && field.value != 0 then field.value else default
  }

  function OrDefaultReal(field: Option<real>, default: real): (r: real)
    ensures field.Some? && field.value != 0.0 ==> r == field.value
    ensures field.None? || field == Some(0.0) ==> r == default
  {
    if field.Some? && field.value != 0.0 then field.value else default
  }

  /** How one imported numeric field is derived from the file: a missing or
      zero field gives the default; any other value is clamped into range. */
  ghost predicate ImportedField(field: Option<int>, default: int, lo: int, hi: int, r: int) {
    && (field.None? || field == Some(0) ==> r == default)
    && (field.Some? && field.value != 0 ==> r == Clamp(field.value, lo, hi))
  }

  /** The `mapping` part of `importJson`: a missing object behaves as an empty one. */
  function ImportMapping(fields: Option<RawMapping>): (m: Mapping)
    ensures InRange(m)
    ensures fields.None? ==> m == DEFAULT_MAPPING
    ensures var f := fields.GetOr(NO_FIELDS);
            && ImportedField(f.transpose, 0, -24, 24, m.transpose)
            && ImportedField(f.velMin, 1, 1, 127, m.velMin)
            && ImportedField(f.velMax, 127, 1, 127, m.velMax)
            && (f.gamma.None? || f.gamma == Some(0.0) ==> m.gamma == 1.0)
            && (f.gamma.Some? && f.gamma.value != 0.0 ==> m.gamma == ClampReal(f.gamma.value, 0.4, 2.5))
  {
    var f := fields.GetOr(NO_FIELDS);
    Mapping(Clamp(OrDefault(f.transpose, 0), -24, 24),
            Clamp(OrDefault(f.velMin, 1), 1, 127),
            Clamp(OrDefault(f.velMax, 127), 1, 127),
            ClampReal(OrDefaultReal(f.gamma, 1.0), 0.4, 2.5))
  }

  /** `importJson` after the file has been read. A malformed file changes
      nothing; otherwise every numeric field is clamped, the name falls back to
      "Imported", and thru and the device ids keep their current values unless
      the file gives them. */
  function Import(current: Settings, doc: Document): (r: Imported)
    ensures r.accepted <==> doc.Parsed?
    ensures !r.accepted ==> r.settings == current
    ensures r.accepted ==> InRange(r.settings.config.mapping)
    ensures doc.Parsed? ==>
              var p := doc.preset;
              var s := r.settings;
              && (p.name != "" ==> s.name == p.name)
              && (p.name == "" ==> s.name == "Imported")
              && s.config.mapping == ImportMapping(p.mapping)
              && (p.thru.Some? ==> s.config.thru == p.thru.value)
              && (p.thru.None? ==> s.config.thru == current.config.thru)
              && (p.device.Some? && p.device.value.inId != "" ==> s.inId == p.device.value.inId)
              && (p.device.None? || p.device.value.inId == "" ==> s.inId == current.inId)
              && (p.device.Some? && p.device.value.outId != "" ==> s.outId == p.device.value.outId)
              && (p.device.None? || p.device.value.outId == "" ==> s.outId == current.outId)
  {
    match doc
    case Malformed => Imported(current, false)
    case Parsed(p) =>
      var device := p.device.GetOr(RawDevice("", ""));
      Imported(Settings(if p.name != "" then p.name else "Imported",
                        Config(ImportMapping(p.mapping), p.thru.GetOr(current.config.thru)),
                        if device.inId != "" then device.inId else current.inId,
                        if device.outId != "" then device.outId else current.outId),
               true)
  }

  /** `exportJson`: every field is written, with format version 1, and an
      in-range configuration comes back unchanged from an import. */
  function Export(s: Settings): (p: RawPreset)
    ensures p.version == Some(1)
    ensures p.mapping.Some? && p.thru.Some? && p.device.Some?
    ensures InRange(s.config.mapping) ==>
              forall current :: Import(current, Parsed(p)).settings.config == s.config
    ensures s.name != "" ==> forall current :: Import(current, Parsed(p)).settings.name == s.name
    ensures forall current :: Import(current, Parsed(p)).settings.config.thru == s.config.thru
    ensures s.inId != "" ==> forall current :: Import(current, Parsed(p)).settings.inId == s.inId
    ensures s.outId != "" ==> forall current :: Import(current, Parsed(p)).settings.outId == s.outId
  {
    var m := s.config.mapping;
    RawPreset(s.name, Some(1),
              Some(RawMapping(Some(m.transpose), Some(m.velMin), Some(m.velMax), Some(m.gamma))),
              Some(s.config.thru), Some(RawDevice(s.inId, s.outId)))
  }

  /** Exporting in-range settings with a name and importing the file into the
      same session reproduces them exactly. */
  lemma ExportImportIdentity(s: Settings)
    requires InRange(s.config.mapping) && s.name != ""
    ensures Import(s, Parsed(Export(s))) == Imported(s, true)
  {
  }

  /** Exported settings with a name and both device ids come back exactly from
      an import into any session, not only the one that wrote the file. */
  lemma ExportImportAnySession(current: Settings, s: Settings)
    requires InRange(s.config.mapping) && s.name != "" && s.inId != "" && s.outId != ""
    ensures Import(current, Parsed(Export(s))) == Imported(s, true)
  {
  }

  /** For any settings, the imported mapping is the clamped form of the
      exported one, as long as velMax and gamma are not zero. */
  lemma ExportImportClamps(current: Settings, s: Settings)
    requires s.config.mapping.velMax != 0 && s.config.mapping.gamma != 0.0
    ensures Import(current, Parsed(Export(s))).settings.config.mapping == Clamped(s.config.mapping)
  {
  }

  /** The two exceptions: `|| 127` and `|| 1` take a zero velMax or gamma for a
      missing field, so it comes back as the default, not as the clamped value. */
  lemma ZeroFieldsTakeDefaults(current: Settings, s: Settings)
    requires s.config.mapping.velMax == 0 || s.config.mapping.gamma == 0.0
    ensures Import(current, Parsed(Export(s))).settings.config.mapping != Clamped(s.config.mapping)
  {
    var m := Import(current, Parsed(Export(s))).settings.config.mapping;
    if s.config.mapping.velMax == 0 {
      assert m.velMax == 127 && Clamped(s.config.mapping).velMax == 1;
    } else {
      assert m.gamma == 1.0 && Clamped(s.config.mapping).gamma == 0.4;
    }
  }
}

=== FILE: scenarios.dfy ===
/** Concrete event sequences worked through the engine. */
module Scenarios {
  import opened Midi
  import opened Mapper
  import opened Engine
  import opened Trace

  function Transposed(t: int): Config {
    Config(Mapping(t, 1, 127, 1.0), true)
  }

  lemma Framed(status: int, d1: int, d2: int)
    requires IsByte(status) && IsByte(d1) && IsByte(d2)
    ensures WellFramed([status, d1, d2])
  {
    var m := [status, d1, d2];
    assert IsByte(m[0]) && IsByte(m[1]) && IsByte(m[2]);
  }

  /** Default mapping, linear curve: a NoteOn with velocity 64..127 (60 at
      100, say) goes out unchanged on its own channel. */
  lemma LoudNoteUnchanged(curve: Curve, channel: int, note: int, velocity: int)
    requires LinearAtOne(curve)
    requires 0 <= channel < CHANNELS && 0 <= note <= 127 && 64 <= velocity <= 127
    ensures WellFramed([NOTE_ON + channel, note, velocity])
    ensures Handle(Transposed(0), curve, map[], [NOTE_ON + channel, note, velocity], true).sent
            == [[NOTE_ON + channel, note, velocity]]
  {
    var d := [NOTE_ON + channel, note, velocity];
    Framed(d[0], note, velocity);
    ChannelStatusSplits(NOTE_ON, channel);
    assert NoteOnMessage(d);
    assert Transposed(0).mapping == DEFAULT_MAPPING;
    DefaultVelocity(curve, velocity);
  }

  /** NoteOn 60 under transpose +12, then the transpose goes back to 0: the
      NoteOff still releases 72, the note that was sent. */
  lemma ReleaseAfterTransposeChange(curve: Curve)
    requires LinearAtOne(curve)
    ensures AllWellFramed([Arrival(Transposed(12), [0x90, 60, 64]), Arrival(Transposed(0), [0x80, 60, 0])])
    ensures var r := Run(curve, map[], [Arrival(Transposed(12), [0x90, 60, 64]),
                                        Arrival(Transposed(0), [0x80, 60, 0])], true);
            r.sent == [[0x90, 72, 64], [0x80, 72, 0]] && r.table == map[]
  {
    var on := Arrival(Transposed(12), [0x90, 60, 64]);
    var off := Arrival(Transposed(0), [0x80, 60, 0]);
    Framed(0x90, 60, 64);
    Framed(0x80, 60, 0);
    assert NoteOnMessage(on.data) && !NoteOffMessage(on.data);
    assert NoteOffMessage(off.data) && !NoteOnMessage(off.data);
    assert Channel(0x90) == 0 && Channel(0x80) == 0;
    assert Transposed(12).mapping.(transpose := 0) == DEFAULT_MAPPING;
    DefaultVelocity(curve, 64);
    assert ApplyVelocity(Transposed(12).mapping, curve, 64) == ApplyVelocity(DEFAULT_MAPPING, curve, 64);
    RunSingle(curve, map[], on, true);
    var first := Handle(on.config, curve, map[], on.data, true);
    assert first.table == map[60 := 72];
    RunSingle(curve, first.table, off, true);
    RunAppend(curve, map[], [on], [off], true);
    assert [on] + [off] == [on, off];
    var second := Handle(off.config, curve, first.table, off.data, true);
    assert second.table == map[];
  }

  /** A NoteOff on channel 3 (counting from 0, status 0x83) with nothing recorded falls back to the current
      transpose (+5): 50 is released as 55. */
  lemma UnrecordedReleaseFallsBack(curve: Curve)
    ensures Handle(Transposed(5), curve, map[], [0x83, 50, 0], true) == Reaction(map[], [[0x83, 55, 0]])
  {
    Framed(0x83, 50, 0);
    var d := [0x83, 50, 0];
    assert NoteOffMessage(d) && !NoteOnMessage(d);
    assert Channel(0x83) == 3;
    assert Handle(Transposed(5), curve, map[], d, true).table == map[];
  }

  /** Monitor-only mode: nothing is sent and nothing is recorded. */
  lemma MonitorOnlyRecordsNothing(curve: Curve)
    ensures Handle(Config(DEFAULT_MAPPING, false), curve, map[], [0x90, 60, 100], true) == Reaction(map[], [])
  {
    Framed(0x90, 60, 100);
  }

  /** A sustain-pedal controller on channel 1 (counting from 0, status 0xB1) passes through whatever the transpose. */
  lemma ControllerPassesThrough(curve: Curve, t: int)
    ensures Handle(Transposed(t), curve, map[], [0xB1, 64, 127], true).sent == [[0xB1, 64, 127]]
  {
    Framed(0xB1, 64, 127);
    var d := [0xB1, 64, 127];
    assert !NoteOnMessage(d) && !NoteOffMessage(d) && Command(0xB1) == CONTROL_CHANGE;
    assert d[..3] == d;
  }
}

=== FILE: trace.dfy ===
/** Properties of whole event streams: the active-note table always holds
    exactly the notes whose last note event was a NoteOn, with the note sent
    for it, so every NoteOff releases the note that was actually sent. */
module Trace {
  import opened Wrappers
  import opened Midi
  import opened NoteTable
  import opened Mapper
  import opened Engine

  /** The arrival is a note event for input note `n` that the handler acts on. */
  predicate Touches(a: Arrival, n: int) {
    a.config.thru && (NoteOnMessage(a.data) || NoteOffMessage(a.data)) && a.data[1] == n
  }

  /** Reference definition, read from the end of the stream: the output note
      held for input note `n` after `arrivals`, starting from table `t`. */
  ghost function Holding(n: int, t: Table, arrivals: seq<Arrival>): Option<int>
    decreases |arrivals|
  {
    if |arrivals| == 0 then
      Lookup(t, n)
    else
      var last := arrivals[|arrivals| - 1];
      if Touches(last, n) then
        if NoteOnMessage(last.data) then Some(MapNote(n, last.config.mapping.transpose)) else None
      else
        Holding(n, t, arrivals[..|arrivals| - 1])
  }

  lemma FramedAppend(a: seq<Arrival>, b: seq<Arrival>)
    requires AllWellFramed(a) && AllWellFramed(b)
    ensures AllWellFramed(a + b)
  {
    forall i | 0 <= i < |a + b| ensures WellFramed((a + b)[i].data) {
      if i < |a| {
        assert (a + b)[i] == a[i];
      } else {
        assert (a + b)[i] == b[i - |a|];
      }
    }
  }

  lemma FramedSlice(a: seq<Arrival>, lo: int, hi: int)
    requires AllWellFramed(a) && 0 <= lo <= hi <= |a|
    ensures AllWellFramed(a[lo..hi])
  {
    forall i | 0 <= i < hi - lo ensures WellFramed(a[lo..hi][i].data) {
      assert a[lo..hi][i] == a[lo + i];
    }
  }

  /** Handling a stream in two pieces is handling it at once. */
  lemma {:induction false} RunAppend(curve: Curve, t: Table, a: seq<Arrival>, b: seq<Arrival>, hasOutput: bool)
    requires AllWellFramed(a) && AllWellFramed(b)
    ensures AllWellFramed(a + b)
    ensures var first := Run(curve, t, a, hasOutput);
            var second := Run(curve, first.table, b, hasOutput);
            Run(curve, t, a + b, hasOutput) == Reaction(second.table, first.sent + second.sent)
    decreases |a|
  {
    FramedAppend(a, b);
    if |a| == 0 {
      assert a + b == b;
    } else {
      var head := Handle(a[0].config, curve, t, a[0].data, hasOutput);
      assert (a + b)[0] == a[0];
      assert (a + b)[1..] == a[1..] + b;
      FramedSlice(a, 1, |a|);
      RunAppend(curve, head.table, a[1..], b, hasOutput);
      var rest := Run(curve, head.table, a[1..], hasOutput);
      var tail := Run(curve, rest.table, b, hasOutput);
      assert head.sent + (rest.sent + tail.sent) == (head.sent + rest.sent) + tail.sent;
    }
  }

  lemma RunSingle(curve: Curve, t: Table, x: Arrival, hasOutput: bool)
    requires WellFramed(x.data)
    ensures AllWellFramed([x])
    ensures Run(curve, t, [x], hasOutput) == Handle(x.config, curve, t, x.data, hasOutput)
  {
    var h := Handle(x.config, curve, t, x.data, hasOutput);
    assert [x][1..] == [];
    assert h.sent + [] == h.sent;
  }

  /** The table agrees with the reference definition after every stream: a
      note is recorded exactly when its last note event was a NoteOn (or,
      with no note event, when it was recorded to begin with), and the
      recorded value is the note that NoteOn mapped to. */
  lemma {:induction false} TableTracksHolding(curve: Curve, t: Table, arrivals: seq<Arrival>, hasOutput: bool, n: int)
    requires AllWellFramed(arrivals)
    ensures Lookup(Run(curve, t, arrivals, hasOutput).table, n) == Holding(n, t, arrivals)
    decreases |arrivals|
  {
    if |arrivals| > 0 {
      var k := |arrivals| - 1;
      var init := arrivals[..k];
      var last := arrivals[k];
      assert arrivals == init + [last];
      FramedSlice(arrivals, 0, k);
      RunAppend(curve, t, init, [last], hasOutput);
      RunSingle(curve, Run(curve, t, init, hasOutput).table, last, hasOutput);
      TableTracksHolding(curve, t, init, hasOutput, n);
    }
  }

  /** Whether an output port is bound never changes what is recorded (the
      table is updated before `send` looks at the port). */
  lemma {:induction false} OutputDoesNotAffectTable(curve: Curve, t: Table, arrivals: seq<Arrival>)
    requires AllWellFramed(arrivals)
    ensures Run(curve, t, arrivals, true).table == Run(curve, t, arrivals, false).table
    decreases |arrivals|
  {
    if |arrivals| > 0 {
      var x := arrivals[0];
      var on := Handle(x.config, curve, t, x.data, true);
      var off := Handle(x.config, curve, t, x.data, false);
      assert on.table == off.table;
      FramedSlice(arrivals, 1, |arrivals|);
      OutputDoesNotAffectTable(curve, on.table, arrivals[1..]);
    }
  }

  /** Events that do not touch `n` leave the reference answer for `n` alone. */
  lemma {:induction false} HoldingSkipsUntouched(n: int, t: Table, a: seq<Arrival>, middle: seq<Arrival>)
    requires forall i :: 0 <= i < |middle| ==> !Touches(middle[i], n)
    ensures Holding(n, t, a + middle) == Holding(n, t, a)
    decreases |middle|
  {
    if |middle| == 0 {
      assert a + middle == a;
    } else {
      var k := |middle| - 1;
      assert (a + middle)[|a + middle| - 1] == middle[k];
      assert (a + middle)[..|a + middle| - 1] == a + middle[..k];
      HoldingSkipsUntouched(n, t, a, middle[..k]);
    }
  }

  /** No stuck notes: a NoteOn for `n`, any events that are not note events
      for `n` (other notes, controllers, configuration changes including the
      transpose, monitor-only events), then a NoteOff for `n`: the NoteOff
      sends the very note the NoteOn sent, and `n` is no longer recorded. */
  lemma NoStuckNote(curve: Curve, t: Table, on: Arrival, middle: seq<Arrival>, off: Arrival)
    requires WellFramed(on.data) && on.config.thru && NoteOnMessage(on.data)
    requires WellFramed(off.data) && off.config.thru && NoteOffMessage(off.data)
    requires off.data[1] == on.data[1]
    requires AllWellFramed(middle)
    requires forall i :: 0 <= i < |middle| ==> !Touches(middle[i], on.data[1])
    ensures var first := Handle(on.config, curve, t, on.data, true);
            var between := Run(curve, first.table, middle, true);
            var last := Handle(off.config, curve, between.table, off.data, true);
            && Command(first.sent[0][0]) == NOTE_ON
            && Command(last.sent[0][0]) == NOTE_OFF
            && last.sent[0][1] == first.sent[0][1]
            && on.data[1] !in last.table
  {
    var n := on.data[1];
    var first := Handle(on.config, curve, t, on.data, true);
    TableTracksHolding(curve, first.table, middle, true, n);
    HoldingSkipsUntouched(n, first.table, [], middle);
    assert [] + middle == middle;
    ChannelStatusSplits(NOTE_ON, Channel(on.data[0]));
    ChannelStatusSplits(NOTE_OFF, Channel(off.data[0]));
  }
}

=== FILE: wrappers.dfy ===
/** The optional value used for table lookups and for preset fields that may be absent. */
module Wrappers {

  datatype Option<+T> = None | Some(value: T) {

    /** The carried value, or `default` when there is none (JavaScript's `??`). */
    function GetOr(default: T): (r: T)
      ensures this.Some? ==> r == this.value
      ensures this.None? ==> r == default
    {
      match this
      case Some(v) => v
      case None => default
    }
  }
}
